=== FILE: README.md ===
# Offline cache service worker — a Dafny model

A Dafny model of the service worker of a Unity WebGL progressive web app,
`ServiceWorker.js`. The worker caches the app for offline use. It reacts to
three events:

- **install** opens the current cache generation `unity-webgl-cache-v1` and
  precaches the app shell (`./index.html`, `./manifest.json`,
  `./favicon.ico`). A precache failure is logged and swallowed.
- **activate** deletes every cache whose name is not the current generation.
- **fetch** passes through requests whose URL does not start with the
  worker's origin. It answers a cache hit from the cache. On a miss it
  fetches from the network and returns the result. A 200 `basic` response
  is written to the current cache in the background when its URL names a
  Unity build file (`/Build/`), a streaming asset (`/StreamingAssets/`), or
  ends in `.png`, `.jpg` or `.json`.

Each handler is a pure function over an immutable Cache Storage value. The
storage is a `Storage(order, caches)`: a map from cache name to a map from
request URL to response, plus the creation order of the names. The order
matters because `caches.match` consults caches in creation order. Whatever
the platform or the network would produce is a parameter:

- the network result of a fetch is a `NetworkResult`;
- the settlement of `cache.addAll` is an `AddAllOutcome`;
- the worker's origin and script directory are strings.

Modules, one per part of the worker:

- `Sequences` (`sequences.dfy`): distinct lists of names and their relative
  order.
- `Strings` (`strings.dfy`): JavaScript's `startsWith`, `includes` and
  `endsWith` on strings as character sequences.
- `Http` (`http.dfy`): responses, response types, network results, and the
  200/`basic` validity test.
- `CacheStorage` (`cache_storage.dfy`): the platform's Cache Storage. Covers
  open, put, delete and the storage-wide match.
- `WorkerConfig` (`worker_config.dfy`): `CACHE_NAME`, `PRECACHE_FILES` and
  the URLs the manifest paths resolve to.
- `Lifecycle` (`lifecycle.dfy`): the install and activate handlers.
- `FetchHandler` (`fetch_handler.dfy`): the fetch handler and its
  cacheable-path predicate.
- `OfflineShell` (`offline.dfy`): install, activate and fetch composed.

Points where the worker's behaviour is easy to misread:

- The scope filter is a text-prefix test, not an origin comparison. So
  `https://game.example.evil.net/…` is intercepted when the origin is
  `https://game.example` (`FetchHandler.LookalikeHostIntercepted`).
- Activate leaves **at most** one generation, not exactly one. When the
  current cache is absent, it leaves none.
- The fetch handler opens the current cache before it tests the path. So a
  200 `basic` response to an ineligible URL creates the current cache, empty,
  when it was absent. No entry is added.
- Install uses `addAll`. Which manifest entries survive a failed precache is
  the platform's decision, so the model takes it as input: it does not
  promise that the remaining paths are stored.

## Model

| member | source | states |
|---|---|---|
| `Strings.Includes` | ServiceWorker.js:72-73 | `url.includes(sub)` is true exactly when `sub` occurs at some index of `url` |
| `Strings.IndexOf` | ServiceWorker.js:72-73 | the substring search returns the first index at or after the start where `sub` occurs, or -1 exactly when it occurs nowhere there |
| `Strings.IncludesInside` | ServiceWorker.js:72-73 | a string placed anywhere inside a longer one is included in it, whatever surrounds it |
| `Strings.EndsWithIff` | ServiceWorker.js:74-76 | `s.endsWith(x)` holds exactly when `s` is some text followed by `x` |
| `Strings.SlashEndedAbsent` | ServiceWorker.js:72-73 | a marker ending in `/` that is absent from a URL stays absent when text without `/` is appended |
| `Http.IsCachingCandidate` | ServiceWorker.js:62 | the validity test, written as the negation of the source's rejection guard, admits exactly the 200 `basic` responses, whatever their body |
| `CacheStorage.Open` | ServiceWorker.js:15 | `caches.open(name)` ensures the cache exists; an existing one is kept and the storage is unchanged; an absent one is created empty and listed last; no entry and no other cache changes |
| `CacheStorage.Put` | ServiceWorker.js:77 | `cache.put` makes the URL map to the response, changes no other entry and no other cache, and leaves the creation order as it was |
| `CacheStorage.SetCache` | ServiceWorker.js:17 | writing a batch into an open cache replaces that cache's entries, leaves every other cache alone, and leaves the creation order as it was |
| `CacheStorage.Delete` | ServiceWorker.js:34 | `caches.delete(name)` removes that cache, leaves every other cache as it was, and keeps every other pair of names in its creation order |
| `CacheStorage.MatchIn` | ServiceWorker.js:51 | the match returns the entry of the first cache in creation order that holds the URL, and nothing exactly when no cache holds it |
| `CacheStorage.Match` | ServiceWorker.js:51-55 | `caches.match` finds nothing exactly when no cache holds the URL; otherwise it returns the entry of the oldest cache that holds it, with no holder before that one |
| `CacheStorage.MatchOldest` | ServiceWorker.js:51-55 | when several caches hold the URL, the match returns the entry of the one created first |
| `CacheStorage.MatchSoleHolder` | ServiceWorker.js:51-55 | when only one cache holds the URL, the match returns that cache's entry |
| `CacheStorage.PutThenMatch` | ServiceWorker.js:51-77 | round trip: a response put under a URL no other cache holds is matched back unchanged (status, type and body) |
| `WorkerConfig.PrecacheKeys` | ServiceWorker.js:5-9 | the manifest resolves to three distinct request URLs, each inside the worker's directory |
| `Lifecycle.PutAll` | ServiceWorker.js:17 | a batch of puts stores each key's last response, adds exactly the batch's keys, and leaves every other key unchanged |
| `Lifecycle.AddAll` | ServiceWorker.js:17-19 | on success every manifest URL holds its fetched response; on failure only the entries written before the rejection are added; keys outside the batch never change |
| `Lifecycle.Install` | ServiceWorker.js:14-19 | install completes with the current cache present whatever `addAll` settles to; on failure it adds only what was written; no other cache is created or altered; no key outside the manifest changes; the creation order only gains the current cache, last, when it was absent |
| `Lifecycle.Purge` | ServiceWorker.js:29-37 | reference definition of activation: the storage restricted to the current cache name |
| `Lifecycle.Activate` | ServiceWorker.js:29-37 | walking `caches.keys()` and deleting each other name leaves only the current cache, with all its entries intact, and equals `Purge` |
| `Lifecycle.PurgeIdempotent` | ServiceWorker.js:29-37 | activating a second time removes nothing more |
| `FetchHandler.CacheWrite` | ServiceWorker.js:70-79 | the background write opens the current cache for any URL and stores the response under the URL only when the path is cacheable; no other entry and no other cache changes; the creation order only gains the current cache, last, when it was absent |
| `FetchHandler.HandleFetch` | ServiceWorker.js:44-89 | the handler preserves the storage invariant; it passes through exactly the requests outside the origin prefix; it fails exactly on an in-scope miss whose fetch rejects; it answers with an absent value only when the network resolved to one; the creation order is unchanged or gains only the current cache, last, when it was absent |
| `FetchHandler.InScope` | ServiceWorker.js:46 | the scope filter holds exactly when the URL agrees with the origin string character by character over the origin's length, a text-prefix test |
| `FetchHandler.IsCacheablePath` | ServiceWorker.js:72-76 | the cacheable-path predicate holds exactly when `/Build/` or `/StreamingAssets/` occurs at some index of the whole URL or `.png`, `.jpg` or `.json` occurs reaching its end |
| `FetchHandler.MarkerAnywhere` | ServiceWorker.js:72-73 | a marker segment makes a URL cacheable wherever it stands, a query string included |
| `FetchHandler.QueryDefeatsExtension` | ServiceWorker.js:74-76 | after a trailing query ending in anything but `g` or `n`, only a marker can make the URL cacheable |
| `FetchHandler.ExtensionCached` | ServiceWorker.js:74-76 | any URL ending in `.png`, `.jpg` or `.json` is cacheable |
| `FetchHandler.VersionQueryDefeatsImage` | ServiceWorker.js:72-76 | a URL ending in `.png`, `.jpg` or `.json` and containing neither `/Build/` nor `/StreamingAssets/` is cacheable, but the same URL with `?v=1` appended is not |
| `FetchHandler.VersionedDefeats` | ServiceWorker.js:72-76 | a marker-free URL followed by any `/`-free extension and a `?v=1` query is not cacheable |
| `FetchHandler.OutOfScopeUntouched` | ServiceWorker.js:46-48 | a URL that does not start with the origin is passed through and the storage is unchanged |
| `FetchHandler.InScopeIff` | ServiceWorker.js:46 | a URL is in scope exactly when it is the origin's text followed by anything |
| `FetchHandler.LookalikeHostIntercepted` | ServiceWorker.js:46 | every URL whose text begins with the origin's text, a lookalike host included, is intercepted, not passed through |
| `FetchHandler.CacheHitServed` | ServiceWorker.js:51-55 | a hit answers with exactly the entry of the oldest cache holding the URL, leaves the storage unchanged, and gives the same result whatever the network does |
| `FetchHandler.InvalidResponsePassedOn` | ServiceWorker.js:62-64 | on a miss, an absent, non-200 or non-`basic` response is returned unchanged and nothing is stored |
| `FetchHandler.EligibleResponseStored` | ServiceWorker.js:67-81 | on a miss, a 200 `basic` response for a cacheable URL is returned and stored under the URL in the current cache; no other entry or cache changes |
| `FetchHandler.IneligiblePathNotStored` | ServiceWorker.js:70-81 | on a miss, a 200 `basic` response for a URL the predicate rejects is returned, and no entry anywhere changes |
| `FetchHandler.TransportFailurePropagates` | ServiceWorker.js:82-86 | on a miss, a rejected fetch fails the request with no fallback and the storage unchanged |
| `FetchHandler.OnlyEligibleResponsesStored` | ServiceWorker.js:60-81 | any entry the handler changes is in the current cache under the requested URL, holding the network's 200 `basic` response to an in-scope miss for a cacheable URL |
| `FetchHandler.FetchedThenServedFromCache` | ServiceWorker.js:51-81 | once an eligible response is stored, the same request is answered from the cache with it, even with the network down |
| `OfflineShell.PrecachedShellServedOffline` | ServiceWorker.js:12-55 | after a successful install and an activate, every manifest URL inside the origin is answered with its precached response even when every fetch fails |
| `OfflineShell.OlderGenerationAnswersUntilActivate` | ServiceWorker.js:14-55 | between install and activation, an older generation listed first still answers a manifest URL it holds, whatever `addAll` settled to |
| `OfflineShell.FailedInstallThenActivate` | ServiceWorker.js:15-37 | after a failed precache and an activate, exactly the current cache remains, holding its earlier entries plus whatever the platform wrote |

## Left out

- Logging with `console.log` and `console.error` (ServiceWorker.js:13, 16, 18, 27, 33, 83) is not modelled: it only has side effects.
- `event.waitUntil`, `self.skipWaiting()` and `self.clients.claim()` (ServiceWorker.js:14, 22, 28, 40) are not modelled. They are host-platform lifecycle control with no decision in them.
- Promise timing is not modelled. The fetch handler's cache write runs detached from the response. The model gives the storage as it is once that write has completed. Concurrent requests racing on the storage are not modelled.
- `request.clone()` and `response.clone()` (ServiceWorker.js:58, 67) are not modelled. They exist because a body stream can be read only once, and here responses are immutable values.
- The Cache Storage, `fetch` and `addAll` are platform calls. They are replaced by the `Storage` value and the `NetworkResult` and `AddAllOutcome` parameters. Whether a failed `addAll` is atomic is not assumed: the entries it wrote are an input.
- Rejections of `caches.open` (ServiceWorker.js:15) and `caches.match` (ServiceWorker.js:51) are not modelled: both are treated as calls that always settle with a value. In the source a rejected open fails the install, because the `.catch` at ServiceWorker.js:17 covers only `addAll`. A rejected match fails the request. The model's install completes because it takes `caches.open` to succeed.
- Request matching is reduced to URL equality. The platform's handling of the HTTP method, of `Vary` and of a rejected `cache.put` is not modelled.
- URL resolution is reduced to `./name` paths against the worker's directory, which is all the manifest uses. The directory is a parameter.
- `respondWith` given the absent value the network resolved to is modelled as `Respond(None)`. What the platform then does with the request is not modelled.
- Strings are sequences of characters. JavaScript's UTF-16 code units and any URL normalisation are not modelled.

=== FILE: cache_storage.dfy ===
/**
 The platform's Cache Storage as a value: named caches kept in creation
 order, each a map from request URL to response. The operations are the
 ones the worker calls: open, put, delete, keys and the storage-wide match.
 */
module CacheStorage {
  import opened Http
  import opened Sequences

  type Cache = map<string, Response>

  /** `order` lists the cache names in creation order (what `caches.keys()`
      returns); `caches` holds each cache's entries. */
  datatype Storage = Storage(order: seq<string>, caches: map<string, Cache>)

  /** Every name is listed once, and the listed names are exactly the caches. */
  predicate Valid(s: Storage) {
    && Distinct(s.order)
    && (forall n :: n in s.caches ==> n in s.order)
    && (forall n :: n in s.order ==> n in s.caches)
  }

  /** The response stored under `url` in cache `name`, if any. */
  function Lookup(s: Storage, name: string, url: string): Option<Response> {
    if name in s.caches && url in s.caches[name] then Some(s.caches[name][url]) else None
  }

  /** Cache `n` exists in both storages or in neither, with the same entries. */
  predicate Agree(s: Storage, t: Storage, n: string) {
    && (n in s.caches <==> n in t.caches)
    && (n in s.caches ==> s.caches[n] == t.caches[n])
  }

  /** Every cache other than `name` is as it was. */
  ghost predicate OnlyTouches(s: Storage, t: Storage, name: string) {
    forall n :: n != name ==> Agree(s, t, n)
  }

  /** Every entry other than (`name`, `url`) is as it was. */
  ghost predicate SameEntriesExcept(s: Storage, t: Storage, name: string, url: string) {
    forall n, k :: (n != name || k != url) ==> Lookup(s, n, k) == Lookup(t, n, k)
  }

  /** Two steps that each leave every other cache alone leave it alone together. */
  lemma OnlyTouchesTrans(s: Storage, t: Storage, u: Storage, name: string)
    requires OnlyTouches(s, t, name) && OnlyTouches(t, u, name)
    ensures OnlyTouches(s, u, name)
  {
    forall n | n != name
      ensures Agree(s, u, n)
    {
      assert Agree(s, t, n) && Agree(t, u, n);
    }
  }

  /** The names of `order` other than `name`, in their order. */
  function Without(order: seq<string>, name: string): (r: seq<string>)
    ensures forall x :: x in r <==> x in order && x != name
    ensures Distinct(order) ==> Distinct(r)
  {
    if |order| == 0 then []
    else if order[0] == name then Without(order[1..], name)
    else
      var rest := Without(order[1..], name);
      assert Distinct(order) ==> order[0] !in order[1..];
      [order[0]] + rest
  }

  /** Every pair listed in order after removing a name was listed in that
      order before, and neither is the removed name. */
  lemma {:induction false} WithoutPrecedesFrom(order: seq<string>, name: string, x: string, y: string)
    requires Precedes(Without(order, name), x, y)
    ensures Precedes(order, x, y) && x != name && y != name
    decreases |order|
  {
    var r := Without(order, name);
    var i, j :| 0 <= i < j < |r| && r[i] == x && r[j] == y;
    assert x in r && y in r;
    var tail := order[1..];
    var rest := Without(tail, name);
    if order[0] == name || i > 0 {
      assert order[0] != name ==> rest[i - 1] == x && rest[j - 1] == y;
      assert Precedes(rest, x, y);
      WithoutPrecedesFrom(tail, name, x, y);
      var i', j' :| 0 <= i' < j' < |tail| && tail[i'] == x && tail[j'] == y;
      assert order[i' + 1] == x && order[j' + 1] == y;
    } else {
      assert rest[j - 1] == y;
      assert y in rest;
      var k :| 0 <= k < |tail| && tail[k] == y;
      assert order[0] == x && order[k + 1] == y;
    }
  }

  /** Every pair of names other than the removed one keeps its order. */
  lemma {:induction false} WithoutPrecedesTo(order: seq<string>, name: string, x: string, y: string)
    requires Precedes(order, x, y) && x != name && y != name
    ensures Precedes(Without(order, name), x, y)
    decreases |order|
  {
    var r := Without(order, name);
    var i, j :| 0 <= i < j < |order| && order[i] == x && order[j] == y;
    var tail := order[1..];
    var rest := Without(tail, name);
    if i == 0 {
      assert tail[j - 1] == y;
      assert y in rest;
      var k :| 0 <= k < |rest| && rest[k] == y;
      assert r == [x] + rest;
      assert r[0] == x && r[k + 1] == y;
    } else {
      assert tail[i - 1] == x && tail[j - 1] == y;
      WithoutPrecedesTo(tail, name, x, y);
      var i', j' :| 0 <= i' < j' < |rest| && rest[i'] == x && rest[j'] == y;
      if order[0] != name {
        assert r[i' + 1] == x && r[j' + 1] == y;
      }
    }
  }

  /** `caches.open(name)`: the cache `name`, created empty (and listed last)
      when it does not exist yet. */
  function Open(s: Storage, name: string): (r: Storage)
    requires Valid(s)
    ensures Valid(r)
    ensures name in r.caches
    ensures r.caches[name] == (if name in s.caches then s.caches[name] else map[])
    ensures OnlyTouches(s, r, name)
    ensures forall n, k :: Lookup(r, n, k) == Lookup(s, n, k)
    ensures name in s.caches ==> r == s
    ensures name !in s.caches ==> r.order == s.order + [name]
  {
    if name in s.caches then s
    else Storage(s.order + [name], s.caches[name := map[]])
  }

  /** `cache.put(url, resp)` on an open cache: the entry is replaced whole. */
  function Put(s: Storage, name: string, url: string, resp: Response): (r: Storage)
    requires Valid(s) && name in s.caches
    ensures Valid(r)
    ensures Lookup(r, name, url) == Some(resp)
    ensures SameEntriesExcept(s, r, name, url)
    ensures OnlyTouches(s, r, name) && name in r.caches
    ensures r.order == s.order
  {
    Storage(s.order, s.caches[name := s.caches[name][url := resp]])
  }

  /** Cache `name`, already open, now holds exactly the entries of `c`. */
  function SetCache(s: Storage, name: string, c: Cache): (r: Storage)
    requires Valid(s) && name in s.caches
    ensures Valid(r)
    ensures name in r.caches && r.caches[name] == c
    ensures OnlyTouches(s, r, name)
    ensures r.order == s.order
  {
    Storage(s.order, s.caches[name := c])
  }

  /** `caches.delete(name)`: the cache and its entries are gone. */
  function Delete(s: Storage, name: string): (r: Storage)
    requires Valid(s)
    ensures Valid(r)
    ensures name !in r.caches
    ensures OnlyTouches(s, r, name)
    ensures forall x, y :: Precedes(r.order, x, y) <==> Precedes(s.order, x, y) && x != name && y != name
  {
    var r := Storage(Without(s.order, name), s.caches - {name});
    assert forall x, y :: Precedes(r.order, x, y) <==> Precedes(s.order, x, y) && x != name && y != name by {
      forall x, y
        ensures Precedes(r.order, x, y) <==> Precedes(s.order, x, y) && x != name && y != name
      {
        if Precedes(r.order, x, y) {
          WithoutPrecedesFrom(s.order, name, x, y);
        }
        if Precedes(s.order, x, y) && x != name && y != name {
          WithoutPrecedesTo(s.order, name, x, y);
        }
      }
    }
    r
  }

  /** Cache `order[i]` exists and holds an entry for `url`. */
  predicate HoldsAt(order: seq<string>, caches: map<string, Cache>, url: string, i: int) {
    0 <= i < |order| && order[i] in caches && url in caches[order[i]]
  }

  /** The storage-wide match over `order`: the entry of the first cache,
      in `order`, that holds `url`. */
  function MatchIn(order: seq<string>, caches: map<string, Cache>, url: string): (r: Option<Response>)
    ensures r.None? <==> forall i :: !HoldsAt(order, caches, url, i)
    ensures r.Some? ==> exists i :: && HoldsAt(order, caches, url, i)
                                    && caches[order[i]][url] == r.value
                                    && forall j :: 0 <= j < i ==> !HoldsAt(order, caches, url, j)
  {
    if |order| == 0 then None
    else if order[0] in caches && url in caches[order[0]] then
      assert HoldsAt(order, caches, url, 0);
      Some(caches[order[0]][url])
    else
      var r := MatchIn(order[1..], caches, url);
      assert !HoldsAt(order, caches, url, 0);
      assert forall i :: HoldsAt(order, caches, url, i) ==> HoldsAt(order[1..], caches, url, i - 1);
      if r.Some? then
        var i :| && HoldsAt(order[1..], caches, url, i)
                 && caches[order[1..][i]][url] == r.value
                 && forall j :: 0 <= j < i ==> !HoldsAt(order[1..], caches, url, j);
        assert HoldsAt(order, caches, url, i + 1);
        assert forall j :: 0 <= j < i + 1 ==> !HoldsAt(order, caches, url, j);
        r
      else
        r
  }

  /** `caches.match(url)`: the stored response of the oldest cache holding
      `url`, or nothing when no cache holds it. */
  function Match(s: Storage, url: string): (r: Option<Response>)
    requires Valid(s)
    ensures r.None? <==> forall n :: n in s.caches ==> url !in s.caches[n]
    ensures r.Some? ==> exists i :: && HoldsAt(s.order, s.caches, url, i)
                                    && r == Some(s.caches[s.order[i]][url])
                                    && forall j :: 0 <= j < i ==> !HoldsAt(s.order, s.caches, url, j)
    ensures r.Some? ==> exists n :: Lookup(s, n, url) == r
  {
    var r := MatchIn(s.order, s.caches, url);
    if r.Some? then
      var i :| && HoldsAt(s.order, s.caches, url, i)
               && s.caches[s.order[i]][url] == r.value
               && forall j :: 0 <= j < i ==> !HoldsAt(s.order, s.caches, url, j);
      assert Lookup(s, s.order[i], url) == r;
      r
    else
      assert forall n :: n in s.caches ==> url !in s.caches[n] by {
        forall n | n in s.caches
          ensures url !in s.caches[n]
        {
          var i :| 0 <= i < |s.order| && s.order[i] == n;
          assert !HoldsAt(s.order, s.caches, url, i);
        }
      }
      r
  }

  /** When several caches hold `url`, a match returns the entry of the one
      created first. */
  lemma MatchOldest(s: Storage, url: string, i: int)
    requires Valid(s)
    requires HoldsAt(s.order, s.caches, url, i)
    requires forall j :: 0 <= j < i ==> !HoldsAt(s.order, s.caches, url, j)
    ensures Match(s, url) == Some(s.caches[s.order[i]][url])
  {
    var k :| && HoldsAt(s.order, s.caches, url, k)
             && Match(s, url) == Some(s.caches[s.order[k]][url])
             && forall j :: 0 <= j < k ==> !HoldsAt(s.order, s.caches, url, j);
    assert HoldsAt(s.order, s.caches, url, k);
    assert !(k < i);
    assert !(i < k);
  }

  /** When one cache alone holds `url`, a match returns its entry. */
  lemma MatchSoleHolder(s: Storage, name: string, url: string)
    requires Valid(s)
    requires name in s.caches && url in s.caches[name]
    requires forall n :: n in s.caches && n != name ==> url !in s.caches[n]
    ensures Match(s, url) == Some(s.caches[name][url])
  {
    var r := Match(s, url);
    var n :| Lookup(s, n, url) == r;
  }

  /** Storing a response under a key no cache holds, then matching that key,
      gives back the very response stored: status, type and body. */
  lemma PutThenMatch(s: Storage, name: string, url: string, resp: Response)
    requires Valid(s) && name in s.caches
    requires forall n :: n in s.caches && n != name ==> url !in s.caches[n]
    ensures Match(Put(s, name, url, resp), url) == Some(resp)
  {
    var t := Put(s, name, url, resp);
    forall n | n in t.caches && n != name
      ensures url !in t.caches[n]
    {
      assert Agree(s, t, n);
    }
    MatchSoleHolder(t, name, url);
  }
}

=== FILE: fetch_handler.dfy ===
/**
 The fetch handler as a pure decision function: scope filter, storage-wide
 cache match, network fetch, validity test and cacheable-path predicate.
 The cache write that the handler leaves running in the background is
 modelled by its completed effect.
 */
module FetchHandler {
  import opened Http
  import opened Strings
  import opened CacheStorage
  import opened WorkerConfig

  /** What the handler does with the request: leaves it to the platform
      (no `respondWith`), answers it with a response (or with the absent
      value the network resolved to), or fails it. */
  datatype Outcome = PassThrough | Respond(response: Option<Response>) | Fail

  /** The outcome together with the storage once the detached write is done. */
  datatype Handled = Handled(outcome: Outcome, storage: Storage)

  /** The scope filter: a prefix test on the URL text, not an origin
      comparison. The URL is in scope exactly when it agrees with the origin
      string character by character over the origin's length. */
  function InScope(url: string, origin: string): (r: bool)
    ensures r <==> |origin| <= |url| && forall i :: 0 <= i < |origin| ==> url[i] == origin[i]
  {
    StartsWith(url, origin)
  }

  /** An independent reading of the predicate: a marker segment occurs at
      some index, or an extension occurs at the index where it reaches the
      end of the URL. */
  ghost predicate CacheableSpec(url: string) {
    || (exists i :: OccursAt(url, "/Build/", i))
    || (exists i :: OccursAt(url, "/StreamingAssets/", i))
    || (exists i :: EndsAt(url, ".png", i))
    || (exists i :: EndsAt(url, ".jpg", i))
    || (exists i :: EndsAt(url, ".json", i))
  }

  /** Which URLs are worth keeping: Unity build files, streaming assets,
      images and JSON. The test runs on the whole URL, query included, and
      holds exactly when a marker occurs somewhere in the URL or the URL ends
      with one of the three extensions. */
  function IsCacheablePath(url: string): (r: bool)
    ensures r <==> CacheableSpec(url)
  {
    EndsWithAt(url, ".png");
    EndsWithAt(url, ".jpg");
    EndsWithAt(url, ".json");
    || Includes(url, "/Build/")
    || Includes(url, "/StreamingAssets/")
    || EndsWith(url, ".png")
    || EndsWith(url, ".jpg")
    || EndsWith(url, ".json")
  }

  /** The background write after a valid response: the current cache is
      opened (created if absent) whatever the URL, and the response is put
      under the URL only when the path is cacheable. The creation order
      only gains the current cache, last, when it was absent. */
  function CacheWrite(s: Storage, url: string, resp: Response): (r: Storage)
    requires Valid(s)
    ensures Valid(r)
    ensures CACHE_NAME in r.caches
    ensures OnlyTouches(s, r, CACHE_NAME)
    ensures IsCacheablePath(url) ==> Lookup(r, CACHE_NAME, url) == Some(resp)
    ensures SameEntriesExcept(s, r, CACHE_NAME, url)
    ensures !IsCacheablePath(url) ==> forall n, k :: Lookup(r, n, k) == Lookup(s, n, k)
    ensures r.order == if CACHE_NAME in s.caches then s.order else s.order + [CACHE_NAME]
  {
    var current := Open(s, CACHE_NAME);
    if IsCacheablePath(url) then Put(current, CACHE_NAME, url, resp) else current
  }

  /** The fetch handler. Out of scope: passed through. Cached: the stored
      response. Otherwise the network result: a rejection fails the request;
      a resolved value is returned as is, and written to the cache in the
      background when it is a 200 `basic` response. */
  function HandleFetch(url: string, origin: string, s: Storage, net: NetworkResult): (h: Handled)
    requires Valid(s)
    ensures Valid(h.storage)
    ensures h.outcome.PassThrough? <==> !InScope(url, origin)
    ensures h.outcome.Fail? <==> InScope(url, origin) && Match(s, url).None? && net.TransportFailure?
    ensures h.outcome.Respond? && h.outcome.response.None? ==> net == Answered(None)
    ensures h.storage.order == s.order || (CACHE_NAME !in s.caches && h.storage.order == s.order + [CACHE_NAME])
  {
    if !InScope(url, origin) then Handled(PassThrough, s)
    else
      match Match(s, url)
      case Some(cached) => Handled(Respond(Some(cached)), s)
      case None =>
        match net
        case TransportFailure => Handled(Fail, s)
        case Answered(resp) =>
          if !IsCachingCandidate(resp) then Handled(Respond(resp), s)
          else Handled(Respond(resp), CacheWrite(s, url, resp.value))
  }

  /** A marker segment makes a URL cacheable wherever it stands, whatever
      comes before or after it (a query string included). */
  lemma MarkerAnywhere(a: string, b: string)
    ensures IsCacheablePath(a + "/Build/" + b)
    ensures IsCacheablePath(a + "/StreamingAssets/" + b)
  {
    IncludesInside(a, "/Build/", b);
    IncludesInside(a, "/StreamingAssets/", b);
  }

  /** A trailing query string that ends in anything but `g` or `n` defeats
      the extension tests: only the markers can make such a URL cacheable. */
  lemma QueryDefeatsExtension(u: string, q: string)
    requires |q| > 0 && q[|q| - 1] != 'g' && q[|q| - 1] != 'n'
    ensures IsCacheablePath(u + q) <==> Includes(u + q, "/Build/") || Includes(u + q, "/StreamingAssets/")
  {
    var t := u + q;
    assert t[|t| - 1] == q[|q| - 1];
    if EndsWith(t, ".png") { EndsWithLastChar(t, ".png"); }
    if EndsWith(t, ".jpg") { EndsWithLastChar(t, ".jpg"); }
    if EndsWith(t, ".json") { EndsWithLastChar(t, ".json"); }
  }

  /** Any URL ending in one of the three extensions is cacheable. */
  lemma ExtensionCached(a: string)
    ensures IsCacheablePath(a + ".png")
    ensures IsCacheablePath(a + ".jpg")
    ensures IsCacheablePath(a + ".json")
  {
    EndsWithIff(a + ".png", ".png");
    EndsWithIff(a + ".jpg", ".jpg");
    EndsWithIff(a + ".json", ".json");
  }

  /** An image or JSON URL without markers is cacheable, but the same URL
      with a `?v=1` version query is not. */
  lemma VersionQueryDefeatsImage(a: string)
    requires !Includes(a, "/Build/") && !Includes(a, "/StreamingAssets/")
    ensures IsCacheablePath(a + ".png") && !IsCacheablePath(a + ".png" + "?v=1")
    ensures IsCacheablePath(a + ".jpg") && !IsCacheablePath(a + ".jpg" + "?v=1")
    ensures IsCacheablePath(a + ".json") && !IsCacheablePath(a + ".json" + "?v=1")
  {
    ExtensionCached(a);
    VersionedDefeats(a, ".png");
    VersionedDefeats(a, ".jpg");
    VersionedDefeats(a, ".json");
  }

  /** A URL without markers, extended by a `/`-free extension and a `?v=1`
      version query, is not cacheable. */
  lemma VersionedDefeats(a: string, ext: string)
    requires !Includes(a, "/Build/") && !Includes(a, "/StreamingAssets/")
    requires '/' !in ext
    ensures !IsCacheablePath(a + ext + "?v=1")
  {
    var t := ext + "?v=1";
    assert '/' !in t;
    assert a + t == (a + ext) + "?v=1";
    SlashEndedAbsent(a, t, "/Build/");
    SlashEndedAbsent(a, t, "/StreamingAssets/");
    QueryDefeatsExtension(a + ext, "?v=1");
  }

  /** A request outside the origin prefix gets no response from the handler
      and leaves the storage as it was. */
  lemma OutOfScopeUntouched(url: string, origin: string, s: Storage, net: NetworkResult)
    requires Valid(s)
    requires !StartsWith(url, origin)
    ensures HandleFetch(url, origin, s, net) == Handled(PassThrough, s)
  {
  }

  /** A URL is in scope exactly when it is the origin's text followed by
      anything. */
  lemma InScopeIff(url: string, origin: string)
    ensures InScope(url, origin) <==> exists rest :: url == origin + rest
  {
    if InScope(url, origin) {
      assert url == origin + url[|origin|..];
    }
    if exists rest :: url == origin + rest {
      var rest :| url == origin + rest;
      assert url[..|origin|] == origin;
    }
  }

  /** The scope test is textual: any URL whose text merely begins with the
      origin's text, such as a host `game.example.evil.net` against the
      origin `https://game.example`, is intercepted like the origin itself. */
  lemma LookalikeHostIntercepted(origin: string, rest: string, s: Storage, net: NetworkResult)
    requires Valid(s)
    ensures !HandleFetch(origin + rest, origin, s, net).outcome.PassThrough?
  {
    InScopeIff(origin + rest, origin);
  }

  /** A cache hit answers with exactly the stored response of the oldest
      cache holding the URL, leaves the storage as it was, and does not
      depend on the network at all. */
  lemma CacheHitServed(url: string, origin: string, s: Storage, net1: NetworkResult, net2: NetworkResult, name: string)
    requires Valid(s)
    requires InScope(url, origin)
    requires name in s.caches && url in s.caches[name]
    ensures HandleFetch(url, origin, s, net1) == HandleFetch(url, origin, s, net2)
    ensures HandleFetch(url, origin, s, net1).storage == s
    ensures Match(s, url).Some? && HandleFetch(url, origin, s, net1).outcome == Respond(Match(s, url))
    ensures exists i :: && HoldsAt(s.order, s.caches, url, i)
                        && HandleFetch(url, origin, s, net1).outcome == Respond(Some(s.caches[s.order[i]][url]))
                        && forall j :: 0 <= j < i ==> !HoldsAt(s.order, s.caches, url, j)
  {
  }

  /** On a miss, an absent, non-200 or non-`basic` response is returned
      unchanged and the storage is left as it was. */
  lemma InvalidResponsePassedOn(url: string, origin: string, s: Storage, resp: Option<Response>)
    requires Valid(s)
    requires InScope(url, origin) && Match(s, url).None?
    requires resp.None? || resp.value.status != 200 || resp.value.kind != Basic
    ensures HandleFetch(url, origin, s, Answered(resp)) == Handled(Respond(resp), s)
  {
  }

  /** On a miss, a 200 `basic` response for a cacheable URL is returned to the
      caller and ends up stored under the URL in the current cache; no other
      cache and no other key changes. */
  lemma EligibleResponseStored(url: string, origin: string, s: Storage, resp: Response)
    requires Valid(s)
    requires InScope(url, origin) && Match(s, url).None?
    requires resp.status == 200 && resp.kind == Basic && IsCacheablePath(url)
    ensures HandleFetch(url, origin, s, Answered(Some(resp))).outcome == Respond(Some(resp))
    ensures Lookup(HandleFetch(url, origin, s, Answered(Some(resp))).storage, CACHE_NAME, url) == Some(resp)
    ensures SameEntriesExcept(s, HandleFetch(url, origin, s, Answered(Some(resp))).storage, CACHE_NAME, url)
    ensures OnlyTouches(s, HandleFetch(url, origin, s, Answered(Some(resp))).storage, CACHE_NAME)
  {
  }

  /** On a miss, a 200 `basic` response for a URL the predicate rejects is
      returned but never stored: every entry is as it was (the current
      cache may have been created, empty). */
  lemma IneligiblePathNotStored(url: string, origin: string, s: Storage, resp: Response)
    requires Valid(s)
    requires InScope(url, origin) && Match(s, url).None?
    requires resp.status == 200 && resp.kind == Basic && !IsCacheablePath(url)
    ensures HandleFetch(url, origin, s, Answered(Some(resp))).outcome == Respond(Some(resp))
    ensures forall n, k :: Lookup(HandleFetch(url, origin, s, Answered(Some(resp))).storage, n, k) == Lookup(s, n, k)
    ensures OnlyTouches(s, HandleFetch(url, origin, s, Answered(Some(resp))).storage, CACHE_NAME)
  {
  }

  /** On a miss, a transport failure fails the request: no fallback response,
      storage unchanged. */
  lemma TransportFailurePropagates(url: string, origin: string, s: Storage)
    requires Valid(s)
    requires InScope(url, origin) && Match(s, url).None?
    ensures HandleFetch(url, origin, s, TransportFailure) == Handled(Fail, s)
  {
  }

  /** Every entry the handler adds or changes is the network's 200 `basic`
      response to an in-scope cache miss for a cacheable URL, stored under
      that URL in the current cache. */
  lemma OnlyEligibleResponsesStored(url: string, origin: string, s: Storage, net: NetworkResult, n: string, k: string)
    requires Valid(s)
    requires Lookup(HandleFetch(url, origin, s, net).storage, n, k) != Lookup(s, n, k)
    ensures n == CACHE_NAME && k == url
    ensures InScope(url, origin) && Match(s, url).None?
    ensures net.Answered? && IsCachingCandidate(net.response) && IsCacheablePath(url)
    ensures Lookup(HandleFetch(url, origin, s, net).storage, n, k) == net.response
  {
  }

  /** Once an eligible response has been fetched and stored, the same
      request is answered from the cache with that response, whatever the
      network does, even when it is down. */
  lemma FetchedThenServedFromCache(url: string, origin: string, s: Storage, resp: Response, later: NetworkResult)
    requires Valid(s)
    requires InScope(url, origin) && Match(s, url).None?
    requires resp.status == 200 && resp.kind == Basic && IsCacheablePath(url)
    ensures var t := HandleFetch(url, origin, s, Answered(Some(resp))).storage;
            HandleFetch(url, origin, t, later) == Handled(Respond(Some(resp)), t)
  {
    var current := Open(s, CACHE_NAME);
    forall n | n in current.caches && n != CACHE_NAME
      ensures url !in current.caches[n]
    {
      assert Agree(s, current, n);
    }
    PutThenMatch(current, CACHE_NAME, url, resp);
  }
}

=== FILE: http.dfy ===
/**
 Immutable values for what the worker sees of the Fetch API: responses,
 the result of a network fetch, and optional values.
 */
module Http {

  datatype Option<+T> = None | Some(value: T)

  type Byte = b: int | 0 <= b < 256

  /** The `type` attribute of a Fetch API response. Only `Basic` (same-origin,
      not opaque, not an error) is eligible for caching. */
  datatype ResponseType = Basic | Cors | Default | Error | Opaque | OpaqueRedirect

  /** A response as a value. Bodies are read once in the platform, which is why
      the worker clones; as an immutable value a response needs no clone. */
  datatype Response = Response(status: int, kind: ResponseType, body: seq<Byte>)

  /** What `fetch(request)` settles to: a resolved value (which the worker
      still tests for absence) or a rejection (a transport failure). */
  datatype NetworkResult = Answered(response: Option<Response>) | TransportFailure

  /** The validity test of the fetch handler, written as the negation of its
      rejection guard (absent, status other than 200, or type other than
      `basic`). It admits exactly the 200 `basic` responses, whatever their
      body. */
  function IsCachingCandidate(resp: Option<Response>): (r: bool)
    ensures r <==> exists body :: resp == Some(Response(200, Basic, body))
  {
    !(resp.None? || resp.value.status != 200 || resp.value.kind != Basic)
  }
}

=== FILE: lifecycle.dfy ===
/**
 The install and activate handlers: install opens the current cache and
 precaches the manifest, swallowing a failed precache; activate deletes
 every cache generation other than the current one.
 */
module Lifecycle {
  import opened Http
  import opened Sequences
  import opened CacheStorage
  import opened WorkerConfig

  /** How the platform's `cache.addAll` settles: every manifest request
      fetched (responses in manifest order), or a rejection together with
      whatever entries the platform had written before it rejected (empty
      when the batch is all-or-nothing). */
  datatype AddAllOutcome = AllFetched(responses: seq<Response>) | AddAllFailed(written: Cache)

  /** Index `i` is the last place `keys[i]` appears in `keys`. */
  predicate LastOccurrence(keys: seq<string>, i: int) {
    0 <= i < |keys| && forall j :: i < j < |keys| ==> keys[j] != keys[i]
  }

  /** Stores `rs[i]` under `keys[i]` for each `i` in turn; a later put of
      the same key replaces an earlier one. */
  function PutAll(c: Cache, keys: seq<string>, rs: seq<Response>): (r: Cache)
    requires |keys| == |rs|
    ensures r.Keys == c.Keys + (set k | k in keys)
    ensures forall k :: k in c && k !in keys ==> r[k] == c[k]
    ensures forall i :: LastOccurrence(keys, i) ==> r[keys[i]] == rs[i]
    decreases |keys|
  {
    if |keys| == 0 then c
    else
      var r := PutAll(c[keys[0] := rs[0]], keys[1..], rs[1..]);
      assert forall i :: LastOccurrence(keys, i) && i > 0 ==> LastOccurrence(keys[1..], i - 1);
      assert LastOccurrence(keys, 0) ==> keys[0] !in keys[1..];
      r
  }

  /** What `cache.addAll` leaves in the cache `c` for the request URLs
      `keys`: every response on success, the entries written before the
      rejection on failure. */
  function AddAll(c: Cache, keys: seq<string>, outcome: AddAllOutcome): (r: Cache)
    requires Distinct(keys)
    requires outcome.AllFetched? ==> |outcome.responses| == |keys|
    requires outcome.AddAllFailed? ==> forall k :: k in outcome.written ==> k in keys
    ensures outcome.AllFetched? ==> forall i :: 0 <= i < |keys| ==> keys[i] in r && r[keys[i]] == outcome.responses[i]
    ensures outcome.AddAllFailed? ==> forall k :: k in outcome.written ==> k in r && r[k] == outcome.written[k]
    ensures forall k :: k !in keys ==> (k in r <==> k in c) && (k in c ==> r[k] == c[k])
    ensures outcome.AddAllFailed? ==> forall k :: k !in outcome.written ==> (k in r <==> k in c) && (k in c ==> r[k] == c[k])
  {
    match outcome
    case AddAllFailed(written) => c + written
    case AllFetched(rs) =>
      assert forall i :: 0 <= i < |keys| ==> LastOccurrence(keys, i);
      PutAll(c, keys, rs)
  }

  /** The install handler with the precache outcome as input. The current
      cache is opened (created if absent); when `addAll` succeeds every
      manifest key holds its fetched response; when it fails the failure is
      caught and the install completes, with only what the platform wrote
      before failing added to the cache. No other cache is created or
      altered, no key outside the manifest changes, and the creation order
      only gains the current cache, last, when it was absent. */
  function Install(s: Storage, dir: string, outcome: AddAllOutcome): (r: Storage)
    requires Valid(s)
    requires outcome.AllFetched? ==> |outcome.responses| == |PRECACHE_FILES|
    requires outcome.AddAllFailed? ==> forall k :: k in outcome.written ==> k in PrecacheKeys(dir)
    ensures Valid(r)
    ensures CACHE_NAME in r.caches
    ensures OnlyTouches(s, r, CACHE_NAME)
    ensures outcome.AddAllFailed? ==>
              forall k :: Lookup(r, CACHE_NAME, k) ==
                if k in outcome.written then Some(outcome.written[k]) else Lookup(s, CACHE_NAME, k)
    ensures outcome.AllFetched? ==>
              forall i :: 0 <= i < |PRECACHE_FILES| ==>
                Lookup(r, CACHE_NAME, PrecacheKeys(dir)[i]) == Some(outcome.responses[i])
    ensures forall k :: k !in PrecacheKeys(dir) ==> Lookup(r, CACHE_NAME, k) == Lookup(s, CACHE_NAME, k)
    ensures r.order == if CACHE_NAME in s.caches then s.order else s.order + [CACHE_NAME]
  {
    // the rejection of a failed addAll is logged and swallowed: install still completes
    var current := Open(s, CACHE_NAME);
    var r := SetCache(current, CACHE_NAME, AddAll(current.caches[CACHE_NAME], PrecacheKeys(dir), outcome));
    OnlyTouchesTrans(s, current, r, CACHE_NAME);
    r
  }

  /** Reference definition of the activate step: the storage restricted to
      the current cache name. */
  function Purge(s: Storage): (r: Storage)
    requires Valid(s)
    ensures Valid(r)
    ensures r.caches == map n | n in s.caches && n == CACHE_NAME :: s.caches[n]
  {
    if CACHE_NAME in s.caches then Storage([CACHE_NAME], map[CACHE_NAME := s.caches[CACHE_NAME]])
    else Storage([], map[])
  }

  /** The activate handler: walks `caches.keys()` and deletes every name
      that differs from the current cache name. Afterwards only the current
      cache can remain, and it keeps all its entries. */
  method Activate(s: Storage) returns (r: Storage)
    requires Valid(s)
    ensures Valid(r)
    ensures forall n :: n in r.caches ==> n == CACHE_NAME
    ensures forall n :: n in s.caches && n != CACHE_NAME ==> n !in r.caches
    ensures CACHE_NAME in s.caches ==> CACHE_NAME in r.caches && r.caches[CACHE_NAME] == s.caches[CACHE_NAME]
    ensures r == Purge(s)
  {
    var names := s.order;
    r := s;
    var i := 0;
    while i < |names|
      invariant 0 <= i <= |names|
      invariant Valid(r)
      invariant forall n :: n in r.caches <==> n in s.caches && (n == CACHE_NAME || n in names[i..])
      invariant forall n :: n in r.caches ==> r.caches[n] == s.caches[n]
    {
      if names[i] != CACHE_NAME {
        var before := r;
        r := Delete(r, names[i]);
        assert forall n :: n != names[i] ==> Agree(before, r, n);
      }
      assert forall n :: n in names[i..] && n != names[i] ==> n in names[i + 1..];
      i := i + 1;
    }
    if CACHE_NAME in s.caches {
      DistinctSingleton(r.order, CACHE_NAME);
    } else {
      NoMembersEmpty(r.order);
    }
    assert r.caches == Purge(s).caches;
  }

  /** Activating twice removes nothing more than activating once. */
  lemma PurgeIdempotent(s: Storage)
    requires Valid(s)
    ensures Purge(Purge(s)) == Purge(s)
  {
  }
}

=== FILE: offline.dfy ===
/**
 The three handlers together: what a successful install followed by
 activation leaves for requests made while the network is down.
 */
module OfflineShell {
  import opened Http
  import opened Strings
  import opened CacheStorage
  import opened WorkerConfig
  import opened Lifecycle
  import opened FetchHandler

  /** After a successful precache and activation, each manifest URL is
      answered from the cache with its precached response even when every
      network fetch fails, provided the worker's directory lies inside the
      origin. */
  lemma PrecachedShellServedOffline(s: Storage, dir: string, origin: string, rs: seq<Response>, i: int)
    requires Valid(s)
    requires |rs| == |PRECACHE_FILES|
    requires StartsWith(dir, origin)
    requires 0 <= i < |PRECACHE_FILES|
    ensures var t := Purge(Install(s, dir, AllFetched(rs)));
            HandleFetch(PrecacheKeys(dir)[i], origin, t, TransportFailure) == Handled(Respond(Some(rs[i])), t)
  {
    var installed := Install(s, dir, AllFetched(rs));
    var t := Purge(installed);
    var key := PrecacheKeys(dir)[i];
    StartsWithTransitive(key, dir, origin);
    assert Lookup(installed, CACHE_NAME, key) == Some(rs[i]);
    MatchSoleHolder(t, CACHE_NAME, key);
  }

  /** Between install and activation an older generation listed first still
      answers a manifest URL it holds: install never moves the current cache
      ahead of it, whatever `addAll` settles to. */
  lemma OlderGenerationAnswersUntilActivate(s: Storage, dir: string, outcome: AddAllOutcome, i: int)
    requires Valid(s)
    requires outcome.AllFetched? ==> |outcome.responses| == |PRECACHE_FILES|
    requires outcome.AddAllFailed? ==> forall k :: k in outcome.written ==> k in PrecacheKeys(dir)
    requires 0 <= i < |PRECACHE_FILES|
    requires |s.order| > 0 && s.order[0] != CACHE_NAME
    requires HoldsAt(s.order, s.caches, PrecacheKeys(dir)[i], 0)
    ensures Match(Install(s, dir, outcome), PrecacheKeys(dir)[i]) == Some(s.caches[s.order[0]][PrecacheKeys(dir)[i]])
  {
    var t := Install(s, dir, outcome);
    var key := PrecacheKeys(dir)[i];
    var old0 := s.order[0];
    assert t.order[0] == old0;
    assert Agree(s, t, old0);
    MatchOldest(t, key, 0);
  }

  /** A failed precache still leaves, after activation, exactly one cache:
      the current one, holding its earlier entries and whatever the
      platform wrote before failing. */
  lemma FailedInstallThenActivate(s: Storage, dir: string, written: Cache)
    requires Valid(s)
    requires forall k :: k in written ==> k in PrecacheKeys(dir)
    ensures var t := Purge(Install(s, dir, AddAllFailed(written)));
            && t.order == [CACHE_NAME]
            && forall k :: Lookup(t, CACHE_NAME, k) ==
                 if k in written then Some(written[k]) else Lookup(s, CACHE_NAME, k)
  {
    var installed := Install(s, dir, AddAllFailed(written));
    var t := Purge(installed);
    forall k
      ensures Lookup(t, CACHE_NAME, k) == Lookup(installed, CACHE_NAME, k)
    {
    }
  }
}

=== FILE: sequences.dfy ===
/**
 Facts about lists of names used by both the storage model and the
 configuration: distinctness and relative order.
 */
module Sequences {

  /** No name is listed twice. */
  predicate Distinct(names: seq<string>) {
    forall i, j :: 0 <= i < j < |names| ==> names[i] != names[j]
  }

  /** `x` is listed somewhere before `y`. */
  ghost predicate Precedes(names: seq<string>, x: string, y: string) {
    exists i, j :: 0 <= i < j < |names| && names[i] == x && names[j] == y
  }

  lemma IndexIsMember(names: seq<string>, i: int)
    requires 0 <= i < |names|
    ensures names[i] in names
  {
  }

  /** A list of distinct names whose only member is `c` is `c` alone. */
  lemma {:induction false} DistinctSingleton(names: seq<string>, c: string)
    requires Distinct(names)
    requires forall x :: x in names <==> x == c
    ensures names == [c]
  {
    assert c in names;
    if |names| > 1 {
      IndexIsMember(names, 0);
      IndexIsMember(names, 1);
      assert false;
    }
  }

  /** A list with no members is empty. */
  lemma NoMembersEmpty(names: seq<string>)
    requires forall x :: x !in names
    ensures names == []
  {
    if |names| > 0 {
      IndexIsMember(names, 0);
      assert false;
    }
  }
}

=== FILE: strings.dfy ===
/**
 The JavaScript string tests the worker relies on (`startsWith`, `includes`,
 `endsWith`), over strings as sequences of characters.
 */
module Strings {

  /** `s.startsWith(p)`: the first |p| characters of `s` are `p`. */
  predicate StartsWith(s: string, p: string) {
    |p| <= |s| && s[..|p|] == p
  }

  /** `s.endsWith(x)`: the last |x| characters of `s` are `x`. */
  predicate EndsWith(s: string, x: string) {
    |x| <= |s| && s[|s| - |x|..] == x
  }

  /** `sub` occurs in `s` beginning at index `i`. */
  predicate OccursAt(s: string, sub: string, i: int) {
    0 <= i && i + |sub| <= |s| && s[i..i + |sub|] == sub
  }

  /** `x` occurs in `s` beginning at index `i` and reaches the end of `s`. */
  predicate EndsAt(s: string, x: string, i: int) {
    OccursAt(s, x, i) && i + |x| == |s|
  }

  /** `s.indexOf(sub, from)` for a start index inside the string:
      the first index at or after `from` where `sub` occurs, or -1. */
  function IndexOf(s: string, sub: string, from: nat): (r: int)
    requires from <= |s|
    ensures r == -1 || (from <= r && OccursAt(s, sub, r))
    ensures r == -1 <==> forall j :: from <= j ==> !OccursAt(s, sub, j)
    ensures forall j :: from <= j < r ==> !OccursAt(s, sub, j)
    decreases |s| - from
  {
    if OccursAt(s, sub, from) then from
    else if from == |s| then -1
    else IndexOf(s, sub, from + 1)
  }

  /** `s.includes(sub)`: `sub` occurs somewhere in `s`. */
  function Includes(s: string, sub: string): (r: bool)
    ensures r <==> exists i :: OccursAt(s, sub, i)
  {
    IndexOf(s, sub, 0) != -1
  }

  /** An occurrence is found wherever it is placed: surrounding text never hides it. */
  lemma IncludesInside(a: string, sub: string, b: string)
    ensures Includes(a + sub + b, sub)
  {
    var s := a + sub + b;
    assert s[|a|..|a| + |sub|] == sub;
    assert OccursAt(s, sub, |a|);
  }

  /** An occurrence of a text ending in `/` cannot reach into an appended
      text that has no `/`: it lies wholly in the first part. */
  lemma SlashEndedStaysLeft(a: string, t: string, m: string, i: int)
    requires |m| > 0 && m[|m| - 1] == '/' && '/' !in t
    requires OccursAt(a + t, m, i)
    ensures OccursAt(a, m, i)
  {
    var s := a + t;
    var last := i + |m| - 1;
    assert s[last] == s[i..i + |m|][|m| - 1] == '/';
    assert i + |m| <= |a|;
    assert a[i..i + |m|] == s[i..i + |m|];
  }

  /** A text ending in `/` that does not occur in `a` does not occur in `a`
      followed by a text without `/`. */
  lemma SlashEndedAbsent(a: string, t: string, m: string)
    requires |m| > 0 && m[|m| - 1] == '/' && '/' !in t
    requires !Includes(a, m)
    ensures !Includes(a + t, m)
  {
    forall i | OccursAt(a + t, m, i)
      ensures OccursAt(a, m, i)
    {
      SlashEndedStaysLeft(a, t, m, i);
    }
  }

  /** A string ends with `x` exactly when it is some text followed by `x`. */
  lemma EndsWithIff(s: string, x: string)
    ensures EndsWith(s, x) <==> exists a :: s == a + x
  {
    if EndsWith(s, x) {
      var a := s[..|s| - |x|];
      assert s == a + x;
    }
    if exists a :: s == a + x {
      var a :| s == a + x;
      assert s[|s| - |x|..] == x;
    }
  }

  /** A string ends with `x` exactly when `x` occurs in it reaching its end. */
  lemma EndsWithAt(s: string, x: string)
    ensures EndsWith(s, x) <==> exists i :: EndsAt(s, x, i)
  {
    if EndsWith(s, x) {
      assert EndsAt(s, x, |s| - |x|);
    }
  }

  /** A string that ends with a non-empty `x` ends with the last character of `x`. */
  lemma EndsWithLastChar(s: string, x: string)
    requires |x| > 0 && EndsWith(s, x)
    ensures |s| > 0 && s[|s| - 1] == x[|x| - 1]
  {
    assert s[|s| - |x|..][|x| - 1] == x[|x| - 1];
  }

  /** A prefix of a prefix is a prefix. */
  lemma StartsWithTransitive(s: string, p: string, q: string)
    requires StartsWith(s, p) && StartsWith(p, q)
    ensures StartsWith(s, q)
  {
    assert s[..|q|] == s[..|p|][..|q|];
  }
}

=== FILE: worker_config.dfy ===
/**
 The worker's configuration constants: the name of the current cache
 generation and the precache manifest, with the keys the manifest's
 relative paths resolve to.
 */
module WorkerConfig {
  import opened Strings
  import opened Sequences

  /** The one cache generation this version of the worker owns. */
  const CACHE_NAME: string := "unity-webgl-cache-v1"

  /** Paths stored at install time, relative to the worker script. */
  const PRECACHE_FILES: seq<string> := ["./index.html", "./manifest.json", "./favicon.ico"]

  /** A `./name` path resolved against `dir`, the URL of the directory that
      holds the worker script (ending in `/`). */
  function Resolve(dir: string, path: string): (r: string)
    requires StartsWith(path, "./")
    ensures StartsWith(r, dir)
    ensures |r| == |dir| + |path| - 2
  {
    dir + path[2..]
  }

  /** The request URLs the manifest stands for: one distinct key per path,
      each inside the worker's directory. */
  function PrecacheKeys(dir: string): (keys: seq<string>)
    ensures |keys| == |PRECACHE_FILES|
    ensures Distinct(keys)
    ensures forall i :: 0 <= i < |keys| ==> StartsWith(keys[i], dir)
    ensures forall i :: 0 <= i < |keys| ==> keys[i] == Resolve(dir, PRECACHE_FILES[i])
  {
    assert forall i :: 0 <= i < |PRECACHE_FILES| ==> StartsWith(PRECACHE_FILES[i], "./");
    var keys := seq(|PRECACHE_FILES|, i requires 0 <= i < |PRECACHE_FILES| => Resolve(dir, PRECACHE_FILES[i]));
    assert |keys[0]| != |keys[1]| && |keys[0]| != |keys[2]| && |keys[1]| != |keys[2]|;
    keys
  }
}
